=== FILE: README.md ===
# Car records with images: a Dafny model

This project models the server side of a car-management application and the
client page that edits a car:

- The server's car routes are create, list, get, update and delete. Each car
  record belongs to one user and holds a title, a description, tags and a list
  of image paths. Get, update and delete look a car up by id and by the
  caller's user id, so a car owned by someone else is reported exactly like a
  missing one; list filters by the caller's user id; create stores a car owned
  by the caller.
- Update reconciles images. It drops the images the client asked to delete,
  appends the newly uploaded ones, and unlinks the deleted files from disk.
  It rejects a request whose uploads plus deletion requests exceed ten.
- The edit-car page keeps a copy of the car, the files newly picked and the
  paths marked for deletion. Its change handlers are pure state updates, and
  its submit handler builds the form data the update route reads.

The server is modelled as a value `Server(cars, disk)`. `cars` is a map from
car id to record. `disk` is the set of image paths present on disk. Each
handler is a pure function. Create, update and delete return a `Step`: the
next state plus a `Response` tag (`Ok(value)`, `BadRequest`, `NotFound` or
`ServerError`). List returns the caller's cars as a map from id to record, and
get returns a `Response`; neither changes the state. The
client page is modelled as a `Form` value, with one pure function per handler.

Modules:

- `ImageLists` (images.dfy): the ordered filter behind image deletion
  (`Retain`) and the best-effort unlink of a list of paths (`UnlinkExisting`).
- `TagText` (tags.dfy): JavaScript's `split(',')` and `join(',')`. The form
  uses them to turn tags into text and back.
- `CarRoutes` (car_routes.dfy): the five route handlers.
- `CarProperties` (car_properties.dfy): lemmas that relate several handler
  calls.
- `EditCarPage` (edit_car_page.dfy): the form reducer, the submit payload, and
  how a submitted form lands on the server.

The model follows the code as written, including these behaviours:

- The limit check counts uploads plus deletion requests. It runs before the
  ownership lookup. It does not bound the resulting number of images: a car
  with ten images that gets one more upload ends with eleven.
- Every requested deletion path that exists on disk is unlinked, even if it
  belongs to another car. That other car keeps a reference to a file that is
  gone.
- Files are unlinked before the record is saved. If the save fails, the files
  are gone and the record still lists them.
- An empty or omitted title, description or tags value never clears the stored
  value. This is JavaScript's `value || current`.
- The edit page sends a title or description the car does not have as the
  text "undefined" (`FormData.append` of an undefined value). The server
  stores that text, because it is not empty.

## Model

| member | source | states |
|---|---|---|
| ImageLists.Retain | Server/routes/Car.js:114 | The kept images are exactly the old images not named in the deletion list. Every copy of a deleted path goes, every other path keeps its multiplicity, and the list never grows. |
| ImageLists.RetainAppend | Server/routes/Car.js:114 | Filtering distributes over concatenation, so the filter keeps the images' relative order. |
| ImageLists.RetainSingleton | Server/routes/Car.js:114 | A single image is kept exactly when it is not in the deletion list. With RetainAppend this fully determines the filter. |
| ImageLists.RetainUnchanged | Server/routes/Car.js:114 | The filter returns the images unchanged if and only if none of them is named in the deletion list. |
| ImageLists.RetainTwice | Server/routes/Car.js:114 | Filtering by one deletion list and then by another equals one filter by both lists concatenated. |
| ImageLists.UnlinkExisting | Server/routes/Car.js:106-111 | Visiting the paths in order and unlinking each one that exists leaves exactly the files that were on disk and not in the list. Missing paths are skipped. |
| TagText.Split | src/pages/EditCarPage/EditCarPage.js:37 | Splitting on ',' yields at least one piece, and no piece contains a comma. |
| TagText.Join | src/pages/EditCarPage/EditCarPage.js:63 | The joined text of no tags is empty. Otherwise it starts with the first tag and, when no tag holds a comma, holds exactly one comma per pair of neighbouring tags. |
| TagText.JoinSplit | src/pages/EditCarPage/EditCarPage.js:117 | Joining the pieces of any split text with ',' gives back that text. |
| TagText.SplitJoin | src/pages/EditCarPage/EditCarPage.js:63 | Splitting comma-joined tags gives back the tags, when the list is non-empty and no tag contains a comma. |
| TagText.JoinNotInjectiveOnEmpty | src/pages/EditCarPage/EditCarPage.js:63 | The empty tag list and the list holding one empty tag both join to "". Splitting that text never gives the empty list back. |
| CarRoutes.FindOwned | Server/routes/Car.js:76 | The lookup by id and owner finds a car if and only if the id exists and the caller owns it, and then returns that stored car. |
| CarRoutes.Pick | Server/routes/Car.js:117-119 | A truthy request value replaces the stored one; otherwise the stored value stays. A non-empty stored value is never cleared. |
| CarRoutes.Create | Server/routes/Car.js:38-60 | The answer is BadRequest exactly when there are more than ten images, and ServerError exactly when there are at most ten and the save fails. Create succeeds if and only if there are at most ten images and the save succeeds. The new record is owned by the caller, has the uploaded paths in order, and is the only change to the store. Failure leaves the state unchanged, and the disk is never touched. |
| CarRoutes.List | Server/routes/Car.js:63-71 | The caller gets exactly the records whose owner is the caller, each unchanged. |
| CarRoutes.Get | Server/routes/Car.js:74-83 | Get returns the car if and only if it exists and the caller owns it. Otherwise the result is NotFound. |
| CarRoutes.Update | Server/routes/Car.js:86-131 | Uploads plus deletions over ten gives BadRequest with no change, checked before ownership. A missing or foreign id gives NotFound with no change. Past both checks, the disk loses exactly the requested paths, even when the save fails. On success only this car changes, and its owner stays the same. The answer is ServerError exactly when both checks pass and the save fails; the record then stays as it was. |
| CarRoutes.Delete | Server/routes/Car.js:134-155 | Delete gives NotFound, with no change, if and only if the caller does not own the car. Otherwise every image file of the car is gone from disk, and on success exactly this car leaves the store. The answer is ServerError exactly when the caller owns the car and the removal fails; the record then stays. |
| CarProperties.UpdateImages | Server/routes/Car.js:114-122 | After a successful update the images are the old images filtered by the deletion list (in their old order), followed by the uploads in order. Each path's count is its old count, or zero if deleted, plus its count among the uploads. |
| CarProperties.ForeignDeletionsIgnored | Server/routes/Car.js:114 | Adding deletion requests for paths the car does not hold leaves the kept list unchanged. |
| CarProperties.UpdateWithoutImageChangesKeepsImages | Server/routes/Car.js:114-122 | With no uploads and no deletion request naming one of the car's images, a successful update leaves the images identical. |
| CarProperties.ReconcileExample | Server/routes/Car.js:114-122 | Images [a, b, c] with upload [d] and deletion [b] become [a, c, d]. |
| CarProperties.UpdateCanExceedTen | Server/routes/Car.js:97-122 | A car with ten images that gets one upload and no deletions passes the limit check and ends with eleven images. |
| CarProperties.UpdateUnlinksOtherCarsFiles | Server/routes/Car.js:106-111 | A deletion request naming another car's image unlinks that file. The other car is left unchanged and still refers to the file. |
| CarProperties.UpdateNeverClears | Server/routes/Car.js:117-119 | A successful update keeps the owner. It never turns a non-empty stored field empty. A falsy request value leaves that field as it was. |
| CarProperties.UpdateSaveFailureLeavesFilesGone | Server/routes/Car.js:106-124 | When the save fails after the checks pass, the response is ServerError. The store is unchanged and still lists a deleted image, but the file is no longer on disk. |
| CarProperties.ListAgreesWithGet | Server/routes/Car.js:65-77 | Get returns a car exactly when that car is in the caller's list, and it returns the listed record. |
| CarProperties.ResponsesSeeOnlyOwnCars | Server/routes/Car.js:76-137 | Two servers that list the same cars for a user give that user the same get, update and delete responses. Other users' cars, and whether a foreign id exists, cannot be observed. |
| CarProperties.CreateThenList | Server/routes/Car.js:52-65 | After a successful create, the owner can get the new car and their list gains exactly that car. Every other user's list is unchanged. |
| CarProperties.DeleteThenList | Server/routes/Car.js:140-149 | After a successful delete, the car is NotFound for its owner and is missing from every user's list, and nothing else is. None of its image files remains on disk. |
| EditCarPage.FormOf | src/pages/EditCarPage/EditCarPage.js:22 | The page holds the fetched car's title, description and images as stored, absent ones included, with the tags array the store hands back. |
| EditCarPage.InputChange | src/pages/EditCarPage/EditCarPage.js:31-34 | Only the named field takes the typed value, now present. Every other field, the picked files and the deleted list stay as they were. |
| EditCarPage.TagsChange | src/pages/EditCarPage/EditCarPage.js:36-38 | The tags become the comma-separated pieces of the typed text, and the tags field shows exactly what was typed. Nothing else changes. |
| EditCarPage.ImageChange | src/pages/EditCarPage/EditCarPage.js:40-43 | The picked files come after the previously picked ones, and both orders are kept. Nothing else changes. |
| EditCarPage.DeleteImage | src/pages/EditCarPage/EditCarPage.js:45-52 | The shown images are filtered by the path, keeping their order: every copy of the path leaves them, and other paths keep their counts. The path is appended to the deleted list. Title, description, tags and picked files are unchanged. |
| EditCarPage.Submit | src/pages/EditCarPage/EditCarPage.js:60-72 | The payload carries the form's title and description, or the text "undefined" for an absent one, the tags joined with ',', the shown images as text fields, the picked files and the deleted list. |
| EditCarPage.SubmitTagsRoundTrip | src/pages/EditCarPage/EditCarPage.js:63 | Splitting the submitted tag text gives back the form's tags, when there is at least one tag and none contains a comma. |
| EditCarPage.Loaded | src/pages/EditCarPage/EditCarPage.js:22 | After the fetched car is stored, with nothing picked or deleted before, the form shows that car and its shown images equal the stored images minus its empty deleted list. |
| EditCarPage.DeleteImageMoves | src/pages/EditCarPage/EditCarPage.js:45-52 | Deleting a shown path moves it from the shown list to the deleted list. The two lists together still cover the same paths. When the path appeared once, the shown list shrinks by one. |
| EditCarPage.HandlersPreserveTracks | src/pages/EditCarPage/EditCarPage.js:31-52 | Every handler keeps the shown images equal to the stored images filtered by the deleted list. |
| EditCarPage.SubmitReconciles | src/pages/EditCarPage/EditCarPage.js:54-72 | Submit a tracking form to the update route. It is rejected exactly when picked plus deleted exceed ten. Otherwise the stored car ends with the images the form showed followed by the uploads. An empty title, description or tag text keeps the stored value. An absent title or description is stored as "undefined". |
| EditCarPage.ResubmitUnedited | src/pages/EditCarPage/EditCarPage.js:22-72 | Loading a stored car and submitting it unedited keeps its images and every present title and description. An absent title or description becomes the stored text "undefined". |

## Left out

- JWT verification in the token middleware (Server/routes/Car.js:26-35). The caller's user id is an input the model trusts.
- Multer's disk storage, timestamped file names and its upload error path (Server/routes/Car.js:11-23, 40-41, 88-89). Uploads arrive as the list of paths multer assigned, already on disk. Multer's own ten-file cap is not modelled, so the create route's check on more than ten images is modelled for any upload count.
- The Mongoose model (Server/models/Car) is not part of this model. Stored fields are kept as the request gave them: absent, or the submitted text. That includes tags, which stay the comma-joined text. No schema defaults or casts are applied. Id generation is a fresh-id parameter of create, and timestamps are left out.
- Failures of the database are a single `persisted` flag on the writes (save, deleteOne), answered with ServerError. Failures of the `find`/`findOne` reads in list, get, update and delete (Server/routes/Car.js:65, 76, 102, 136) are not modelled, including a malformed id whose cast error answers 500 rather than 404; a read always succeeds. Exceptions thrown by `fs.unlinkSync` are not modelled either.
- A `deletedImages` value that is not a JSON array (Server/routes/Car.js:94) is not modelled. The deletion list is a parsed list of paths.
- `path.join(__dirname, '..', p)` is the identity: a reference is its file path.
- The "file not found" log line in delete has no effect on state and is not modelled.
- Response bodies and HTTP status codes are reduced to the outcome tag and the returned car.
- Concurrency is not modelled: each handler is one atomic transition, so the last-write-wins race between simultaneous updates is out of scope.
- On the edit page: rendering, fetching the car on mount, axios calls, localStorage, navigation, the loading flag, and the FormData encoding itself are not modelled. `handleInputChange` is modelled only for the two inputs that carry a `name` (title and description).
- The upload step between the page and the server is a parameter of EditCarPage.SubmitReconciles: one stored path per picked file.
- EditCarPage.Loaded: assumes the picked and deleted lists are empty when the fetched car is stored. `setCar(response.data)` (src/pages/EditCarPage/EditCarPage.js:22) does not reset them, so a refetch after the route id changes would keep the previous car's deletion list; that case is not modelled.
- EditCarPage.FormOf: takes the fetched tags array as a parameter. The routes store the submitted tag text, and the store schema that turns it into the array the page joins (src/pages/EditCarPage/EditCarPage.js:63, 117) is not part of this model. If the store hands back text or nothing instead of an array, `car.tags.join(',')` throws and the page fails to render. That case is not modelled.
- CarRoutes.Create: a create request without multipart data leaves `req.files` unset, so `req.files.map` (Server/routes/Car.js:45) throws outside the try block and no response is sent. The model's uploads are always a list of paths, so this case is not modelled.
- CarRoutes.List: `Car.find` (Server/routes/Car.js:65) answers an array in store order; the model returns the caller's cars as a map keyed by id, so that order is not modelled.

=== FILE: car_properties.dfy ===
/**
 Properties that relate several calls of the car routes: what an update does
 to a car's images and fields, how the handlers see only the caller's cars,
 and how create and delete show up in a later list.
 */
module CarProperties {
  import opened ImageLists
  import opened CarRoutes

  /** After a successful update the images are the old ones not asked for
      deletion, in their old order and with every copy of a deleted path gone,
      followed by the uploads in upload order. */
  lemma UpdateImages(s: Server, user: UserId, id: CarId, title: Text, description: Text, tags: Text,
                     uploads: seq<Path>, deleted: seq<Path>)
    requires |uploads| + |deleted| <= MaxImages
    requires id in s.cars && s.cars[id].userId == user
    ensures var r := Update(s, user, id, title, description, tags, uploads, deleted, true);
            var before, after := s.cars[id].images, r.response.value.images;
            && r.response.Ok?
            && |after| >= |uploads|
            && after[|after| - |uploads|..] == uploads
            && after[..|after| - |uploads|] == Retain(before, deleted)
            && (forall x :: x in after[..|after| - |uploads|] <==> x in before && x !in deleted)
            && (forall x :: multiset(after)[x] ==
                  (if x in deleted then 0 else multiset(before)[x]) + multiset(uploads)[x])
  {
    var r := Update(s, user, id, title, description, tags, uploads, deleted, true);
    var kept := Retain(s.cars[id].images, deleted);
    var after := r.response.value.images;
    assert after == kept + uploads;
    assert after[|after| - |uploads|..] == uploads;
    assert after[..|after| - |uploads|] == kept;
  }

  /** Requests to delete paths the car does not hold change nothing in the
      retained list: adding such paths to a deletion list is harmless.
      Automatic induction is off so that the proof is the composition below. */
  lemma {:induction false} ForeignDeletionsIgnored(images: seq<Path>, deleted: seq<Path>, extra: seq<Path>)
    requires forall x :: x in extra ==> x !in images
    ensures Retain(images, deleted + extra) == Retain(images, deleted)
  {
    RetainTwice(images, deleted, extra);
    var kept := Retain(images, deleted);
    RetainUnchanged(kept, extra);
  }

  /** With no uploads and nothing of the car's to delete, a successful update
      leaves the images exactly as they were. */
  lemma UpdateWithoutImageChangesKeepsImages(s: Server, user: UserId, id: CarId, title: Text,
                                             description: Text, tags: Text, deleted: seq<Path>)
    requires |deleted| <= MaxImages
    requires id in s.cars && s.cars[id].userId == user
    requires forall x :: x in deleted ==> x !in s.cars[id].images
    ensures var r := Update(s, user, id, title, description, tags, [], deleted, true);
            r.response.Ok? && r.response.value.images == s.cars[id].images
  {
    RetainUnchanged(s.cars[id].images, deleted);
  }

  /** The worked example of the reconciliation: [a, b, c], upload [d], delete [b] gives [a, c, d]. */
  lemma ReconcileExample()
    ensures Retain(["a", "b", "c"], ["b"]) + ["d"] == ["a", "c", "d"]
  {
    assert ["a", "b", "c"][1..] == ["b", "c"];
    assert ["b", "c"][1..] == ["c"];
  }

  /** The limit check bounds the request, not the result: a car holding ten
      images that receives one upload and no deletions ends with eleven. */
  lemma UpdateCanExceedTen(s: Server, user: UserId, id: CarId, upload: Path)
    requires id in s.cars && s.cars[id].userId == user
    requires |s.cars[id].images| == MaxImages
    ensures var r := Update(s, user, id, Absent, Absent, Absent, [upload], [], true);
            r.response.Ok? && |r.response.value.images| == MaxImages + 1
  {
    RetainUnchanged(s.cars[id].images, []);
  }

  /** An update unlinks a requested path even when another car still refers to
      it: that car keeps a reference to a file that is gone. */
  lemma UpdateUnlinksOtherCarsFiles(s: Server, user: UserId, id: CarId, other: CarId, title: Text,
                                    description: Text, tags: Text, uploads: seq<Path>,
                                    deleted: seq<Path>, p: Path)
    requires |uploads| + |deleted| <= MaxImages
    requires id in s.cars && s.cars[id].userId == user
    requires other in s.cars && other != id
    requires p in deleted && p in s.cars[other].images && p in s.disk
    ensures var r := Update(s, user, id, title, description, tags, uploads, deleted, true);
            && r.response.Ok?
            && r.server.cars[other] == s.cars[other]
            && p in r.server.cars[other].images
            && p in s.disk - r.server.disk
  {
  }

  /** A successful update never clears a stored non-empty field and never
      changes the owner, whatever the request carries. */
  lemma UpdateNeverClears(s: Server, user: UserId, id: CarId, title: Text, description: Text, tags: Text,
                          uploads: seq<Path>, deleted: seq<Path>, persisted: bool)
    ensures var r := Update(s, user, id, title, description, tags, uploads, deleted, persisted);
            r.response.Ok? ==>
              var before, after := s.cars[id], r.response.value;
              && after.userId == before.userId == user
              && (Truthy(before.title) ==> Truthy(after.title))
              && (Truthy(before.description) ==> Truthy(after.description))
              && (Truthy(before.tags) ==> Truthy(after.tags))
              && (!Truthy(title) ==> after.title == before.title)
              && (!Truthy(description) ==> after.description == before.description)
              && (!Truthy(tags) ==> after.tags == before.tags)
  {
  }

  /** Files are unlinked before the save: when the save fails, the car keeps
      its old images while the requested files are already gone. */
  lemma UpdateSaveFailureLeavesFilesGone(s: Server, user: UserId, id: CarId, title: Text,
                                         description: Text, tags: Text, uploads: seq<Path>,
                                         deleted: seq<Path>, p: Path)
    requires |uploads| + |deleted| <= MaxImages
    requires id in s.cars && s.cars[id].userId == user
    requires p in deleted && p in s.cars[id].images && p in s.disk
    ensures var r := Update(s, user, id, title, description, tags, uploads, deleted, false);
            && r.response == ServerError
            && r.server.cars == s.cars
            && p in r.server.cars[id].images
            && p !in r.server.disk
  {
  }

  /** Get and List agree: the caller gets a car exactly when it is in the caller's list. */
  lemma ListAgreesWithGet(s: Server, user: UserId, id: CarId)
    ensures Get(s, user, id).Ok? <==> id in List(s, user)
    ensures id in List(s, user) ==> Get(s, user, id) == Ok(List(s, user)[id])
  {
  }

  /** What a caller is told depends only on the caller's own cars: two servers
      that list the same cars for `user` answer get, update and delete alike,
      so a foreign id and a missing id cannot be told apart. */
  lemma ResponsesSeeOnlyOwnCars(s1: Server, s2: Server, user: UserId, id: CarId, title: Text,
                                description: Text, tags: Text, uploads: seq<Path>,
                                deleted: seq<Path>, persisted: bool)
    requires List(s1, user) == List(s2, user)
    ensures Get(s1, user, id) == Get(s2, user, id)
    ensures Update(s1, user, id, title, description, tags, uploads, deleted, persisted).response
         == Update(s2, user, id, title, description, tags, uploads, deleted, persisted).response
    ensures Delete(s1, user, id, persisted).response == Delete(s2, user, id, persisted).response
  {
    assert FindOwned(s1.cars, user, id) == FindOwned(s2.cars, user, id) by {
      assert id in List(s1, user) <==> id in List(s2, user);
    }
  }

  /** A created car is visible to its owner and to no one else. */
  lemma CreateThenList(s: Server, user: UserId, id: CarId, title: Text, description: Text, tags: Text,
                       uploads: seq<Path>, persisted: bool, someone: UserId)
    requires id !in s.cars
    ensures var r := Create(s, user, id, title, description, tags, uploads, persisted);
            r.response.Ok? ==>
              && Get(r.server, user, id) == r.response
              && List(r.server, user) == List(s, user)[id := r.response.value]
              && (someone != user ==> List(r.server, someone) == List(s, someone))
  {
  }

  /** After a delete the car is in nobody's list and every other car is untouched. */
  lemma DeleteThenList(s: Server, user: UserId, id: CarId, someone: UserId)
    ensures var r := Delete(s, user, id, true);
            r.response.Ok? ==>
              && Get(r.server, user, id) == NotFound
              && List(r.server, someone) == List(s, someone) - {id}
              && (forall p :: p in s.cars[id].images ==> p !in r.server.disk)
  {
  }
}

=== FILE: car_routes.dfy ===
/**
 The car routes of the server: create, list, get, update and delete, each a
 pure transition of the server state (the car collection and the set of files
 on disk) that also yields the response the handler sends.

 The caller's user id is the one the token middleware verified. Whether the
 collection accepted a write (`save` or `deleteOne`) is a parameter,
 `persisted`, because the store's own failures are not part of this model.
 */
module CarRoutes {
  import opened ImageLists

  type UserId = string
  type CarId = string

  /** Most images one request may carry, and the bound on the raw request shape in update. */
  const MaxImages: nat := 10

  datatype Option<T> = None | Some(value: T)

  /** A text field of a request body or of a stored car: absent or a string. */
  datatype Text = Absent | Present(value: string)

  /** JavaScript truthiness of a body field: present and not the empty string. */
  predicate Truthy(t: Text)
  {
    t.Present? && t.value != ""
  }

  datatype Car = Car(userId: UserId, title: Text, description: Text, tags: Text, images: seq<Path>)

  /** The car collection, keyed by id, and the image files present on disk. */
  datatype Server = Server(cars: map<CarId, Car>, disk: set<Path>)

  /** The outcome tag of a response; `ServerError` is the catch-all 500 reply. */
  datatype Response<T> = Ok(value: T) | BadRequest | NotFound | ServerError

  /** The state after a handler ran, with the response it sent. */
  datatype Step<T> = Step(server: Server, response: Response<T>)

  /** `Car.findOne({ _id: id, userId: user })`: the car only when it exists and `user` owns it. */
  function FindOwned(cars: map<CarId, Car>, user: UserId, id: CarId): (r: Option<Car>)
    ensures r.Some? <==> id in cars && cars[id].userId == user
    ensures r.Some? ==> r.value == cars[id]
  {
    if id in cars && cars[id].userId == user then Some(cars[id]) else None
  }

  /** `field || current`: the request value when truthy, otherwise the stored one. */
  function Pick(field: Text, current: Text): (r: Text)
    ensures Truthy(field) ==> r == field
    ensures !Truthy(field) ==> r == current
    ensures Truthy(current) ==> Truthy(r)
  {
    if Truthy(field) then field else current
  }

  /** POST /: store a new car owned by the caller, under the fresh id the store assigns. */
  function Create(s: Server, user: UserId, id: CarId, title: Text, description: Text, tags: Text,
                  uploads: seq<Path>, persisted: bool): (r: Step<Car>)
    requires id !in s.cars
    ensures r.server.disk == s.disk
    ensures r.response.BadRequest? <==> |uploads| > MaxImages
    ensures r.response.ServerError? <==> |uploads| <= MaxImages && !persisted
    ensures r.response.Ok? <==> |uploads| <= MaxImages && persisted
    ensures !r.response.Ok? ==> r.server == s
    ensures r.response.Ok? ==>
              && r.response.value == Car(user, title, description, tags, uploads)
              && r.server.cars == s.cars[id := r.response.value]
  {
    if |uploads| > MaxImages then Step(s, BadRequest)
    else
      var car := Car(user, title, description, tags, uploads);
      if persisted then Step(Server(s.cars[id := car], s.disk), Ok(car))
      else Step(s, ServerError)
  }

  /** GET /: every car of the caller, keyed by id. */
  function List(s: Server, user: UserId): (r: map<CarId, Car>)
    ensures forall id :: id in r <==> id in s.cars && s.cars[id].userId == user
    ensures forall id :: id in r ==> r[id] == s.cars[id]
  {
    map id | id in s.cars && s.cars[id].userId == user :: s.cars[id]
  }

  /** GET /:id: the car when the caller owns it; a missing and a foreign id both give NotFound. */
  function Get(s: Server, user: UserId, id: CarId): (r: Response<Car>)
    ensures r.Ok? || r.NotFound?
    ensures r.Ok? <==> id in s.cars && s.cars[id].userId == user
    ensures r.Ok? ==> r.value == s.cars[id]
  {
    match FindOwned(s.cars, user, id)
    case None => NotFound
    case Some(car) => Ok(car)
  }

  /** PUT /:id. The limit check looks at the request alone and runs before the
      lookup; deletion requests are unlinked from disk before the save. */
  function Update(s: Server, user: UserId, id: CarId, title: Text, description: Text, tags: Text,
                  uploads: seq<Path>, deleted: seq<Path>, persisted: bool): (r: Step<Car>)
    ensures |uploads| + |deleted| > MaxImages ==> r == Step(s, BadRequest)
    ensures |uploads| + |deleted| <= MaxImages && FindOwned(s.cars, user, id).None? ==> r == Step(s, NotFound)
    ensures r.response.BadRequest? || r.response.NotFound? ==> r.server == s
    ensures r.response.Ok? <==>
              |uploads| + |deleted| <= MaxImages && FindOwned(s.cars, user, id).Some? && persisted
    ensures r.response.ServerError? <==>
              |uploads| + |deleted| <= MaxImages && FindOwned(s.cars, user, id).Some? && !persisted
    ensures r.response.Ok? || r.response.ServerError? ==>
              && id in s.cars && s.cars[id].userId == user
              && (forall p :: p in r.server.disk <==> p in s.disk && p !in deleted)
    ensures r.response.ServerError? ==> r.server.cars == s.cars
    ensures r.response.Ok? ==>
              var before, after := s.cars[id], r.response.value;
              && r.server.cars == s.cars[id := after]
              && after.userId == before.userId
              && after.title == Pick(title, before.title)
              && after.description == Pick(description, before.description)
              && after.tags == Pick(tags, before.tags)
              && after.images == Retain(before.images, deleted) + uploads
  {
    if |uploads| + |deleted| > MaxImages then Step(s, BadRequest)
    else
      match FindOwned(s.cars, user, id)
      case None => Step(s, NotFound)
      case Some(car) =>
        var disk := UnlinkExisting(s.disk, deleted);
        var updated := car.(title := Pick(title, car.title),
                            description := Pick(description, car.description),
                            tags := Pick(tags, car.tags),
                            images := Retain(car.images, deleted) + uploads);
        if persisted then Step(Server(s.cars[id := updated], disk), Ok(updated))
        else Step(Server(s.cars, disk), ServerError)
  }

  /** DELETE /:id: unlink every image of the caller's car that exists, then remove the car. */
  function Delete(s: Server, user: UserId, id: CarId, persisted: bool): (r: Step<()>)
    ensures r.response.NotFound? <==> FindOwned(s.cars, user, id).None?
    ensures r.response.NotFound? ==> r.server == s
    ensures r.response.Ok? <==> FindOwned(s.cars, user, id).Some? && persisted
    ensures r.response.ServerError? <==> FindOwned(s.cars, user, id).Some? && !persisted
    ensures !r.response.NotFound? ==>
              && id in s.cars
              && (forall p :: p in r.server.disk <==> p in s.disk && p !in s.cars[id].images)
    ensures r.response.Ok? ==> r.server.cars == s.cars - {id}
    ensures r.response.ServerError? ==> r.server.cars == s.cars
  {
    match FindOwned(s.cars, user, id)
    case None => Step(s, NotFound)
    case Some(car) =>
      var disk := UnlinkExisting(s.disk, car.images);
      if persisted then Step(Server(s.cars - {id}, disk), Ok(()))
      else Step(Server(s.cars, disk), ServerError)
  }
}

=== FILE: edit_car_page.dfy ===
/**
 The edit-car form as a reducer: the state the page keeps (the car being
 edited, the files newly picked, the images marked for deletion), one pure
 function per change handler, and the payload the submit handler sends to
 PUT /api/cars/:id.
 */
module EditCarPage {
  import opened ImageLists
  import opened TagText
  import opened CarRoutes

  /** A file chosen in the file input; the server later stores it under a path. */
  datatype LocalFile = LocalFile(name: string)

  /** The page's copy of the car, as fetched from the server and edited since.
      A title or description the stored car lacks stays absent until typed in. */
  datatype FormCar = FormCar(title: Text, description: Text, tags: seq<string>, images: seq<Path>)

  datatype Form = Form(car: FormCar, newImages: seq<LocalFile>, deletedImages: seq<Path>)

  /** The inputs wired to the generic change handler, by their `name` attribute. */
  datatype InputName = Title | Description

  /** What the form data of a submit carries. The existing image paths are
      sent as plain text fields, which the server does not read. */
  datatype Payload = Payload(title: string, description: string, tags: string,
                             existingImages: seq<Path>, files: seq<LocalFile>,
                             deletedImages: seq<Path>)

  /** What `FormData.append` sends for a text field: the string itself, and
      the text "undefined" for a field the car does not have. */
  const Undefined: string := "undefined"

  function FormText(t: Text): (r: string)
    ensures t.Present? ==> r == t.value
    ensures t.Absent? ==> r == Undefined
  {
    match t
    case Absent => Undefined
    case Present(value) => value
  }

  /** The fetched car as the page holds it: the stored title, description and
      images, with `tags` the array the store hands back for the tags field. */
  function FormOf(c: Car, tags: seq<string>): (r: FormCar)
    ensures r.title == c.title && r.description == c.description
    ensures r.tags == tags && r.images == c.images
  {
    FormCar(c.title, c.description, tags, c.images)
  }

  /** The page right after `setCar` stored the fetched car, assuming nothing
      was picked or deleted before: it shows the car's images and tracks them. */
  function Loaded(car: FormCar): (r: Form)
    ensures r.car == car
    ensures |r.newImages| + |r.deletedImages| == 0
    ensures Tracks(r, car.images)
  {
    RetainUnchanged(car.images, []);
    Form(car, [], [])
  }

  /** handleInputChange: set the named field of the car. */
  function InputChange(f: Form, name: InputName, value: string): (r: Form)
    ensures r.newImages == f.newImages && r.deletedImages == f.deletedImages
    ensures r.car.tags == f.car.tags && r.car.images == f.car.images
    ensures r.car.title == (if name == Title then Present(value) else f.car.title)
    ensures r.car.description == (if name == Description then Present(value) else f.car.description)
  {
    match name
    case Title => f.(car := f.car.(title := Present(value)))
    case Description => f.(car := f.car.(description := Present(value)))
  }

  /** handleTagsChange: the tags become the comma-separated pieces of the
      typed text, and the tags field, which shows the joined tags, shows
      exactly what was typed. */
  function TagsChange(f: Form, value: string): (r: Form)
    ensures r.car.tags == Split(value)
    ensures Join(r.car.tags) == value
    ensures r.car.title == f.car.title && r.car.description == f.car.description
    ensures r.car.images == f.car.images
    ensures r.newImages == f.newImages && r.deletedImages == f.deletedImages
  {
    JoinSplit(value);
    f.(car := f.car.(tags := Split(value)))
  }

  /** handleImageChange: the picked files go after the ones picked before. */
  function ImageChange(f: Form, files: seq<LocalFile>): (r: Form)
    ensures |r.newImages| == |f.newImages| + |files|
    ensures r.newImages[..|f.newImages|] == f.newImages
    ensures r.newImages[|f.newImages|..] == files
    ensures r.car == f.car && r.deletedImages == f.deletedImages
  {
    f.(newImages := f.newImages + files)
  }

  /** handleDeleteImage: drop every copy of `path` from the shown images and
      record it, once more, as deleted. */
  function DeleteImage(f: Form, path: Path): (r: Form)
    ensures r.car.images == Retain(f.car.images, [path])
    ensures forall x :: x in r.car.images <==> x in f.car.images && x != path
    ensures forall x :: multiset(r.car.images)[x] == if x == path then 0 else multiset(f.car.images)[x]
    ensures r.deletedImages == f.deletedImages + [path]
    ensures r.car.title == f.car.title && r.car.description == f.car.description
    ensures r.car.tags == f.car.tags && r.newImages == f.newImages
  {
    f.(car := f.car.(images := Retain(f.car.images, [path])),
       deletedImages := f.deletedImages + [path])
  }

  /** handleSubmit: the form data sent to the update route. An absent title
      or description goes out as the text "undefined". */
  function Submit(f: Form): (p: Payload)
    ensures f.car.title.Present? ==> p.title == f.car.title.value
    ensures f.car.title.Absent? ==> p.title == Undefined
    ensures f.car.description.Present? ==> p.description == f.car.description.value
    ensures f.car.description.Absent? ==> p.description == Undefined
    ensures p.tags == Join(f.car.tags)
    ensures p.existingImages == f.car.images
    ensures p.files == f.newImages && p.deletedImages == f.deletedImages
  {
    Payload(FormText(f.car.title), FormText(f.car.description), Join(f.car.tags), f.car.images, f.newImages,
            f.deletedImages)
  }

  /** The submitted tag text, split again as the tags field would, gives back
      the form's tags when there is at least one and none contains a comma. */
  lemma SubmitTagsRoundTrip(f: Form)
    requires |f.car.tags| >= 1
    requires forall i :: 0 <= i < |f.car.tags| ==> Comma !in f.car.tags[i]
    ensures Split(Submit(f).tags) == f.car.tags
  {
    SplitJoin(f.car.tags);
  }

  /** The form's images are the stored images minus everything marked deleted. */
  predicate Tracks(f: Form, stored: seq<Path>)
  {
    f.car.images == Retain(stored, f.deletedImages)
  }

  /** Deleting an image moves it from the shown list to the deleted list: the
      two lists together cover the same paths, and with no duplicates the
      shown list shrinks by one. */
  lemma DeleteImageMoves(f: Form, path: Path)
    requires path in f.car.images
    ensures var r := DeleteImage(f, path);
            && path !in r.car.images && path in r.deletedImages
            && (forall x :: x in r.car.images || x in r.deletedImages <==>
                             x in f.car.images || x in f.deletedImages)
            && (multiset(f.car.images)[path] == 1 ==> |r.car.images| == |f.car.images| - 1)
  {
    var r := DeleteImage(f, path);
    if multiset(f.car.images)[path] == 1 {
      assert forall x :: multiset(f.car.images)[x] == (multiset(r.car.images) + multiset{path})[x];
      assert multiset(f.car.images) == multiset(r.car.images) + multiset{path};
      assert |multiset(f.car.images)| == |multiset(r.car.images)| + 1;
    }
  }

  /** Every handler keeps the form tracking the stored images. Automatic
      induction is off so that the proof is the RetainTwice step below. */
  lemma {:induction false} HandlersPreserveTracks(f: Form, stored: seq<Path>, name: InputName,
                                                   value: string, files: seq<LocalFile>, path: Path)
    requires Tracks(f, stored)
    ensures Tracks(InputChange(f, name, value), stored)
    ensures Tracks(TagsChange(f, value), stored)
    ensures Tracks(ImageChange(f, files), stored)
    ensures Tracks(DeleteImage(f, path), stored)
  {
    RetainTwice(stored, f.deletedImages, [path]);
  }

  /** Submitting a form that tracks the stored car: the server rejects it
      exactly when picked plus deleted exceed ten; otherwise the stored car
      ends with the images the form showed followed by the uploads. An empty
      title, description or tag text keeps the stored value, and an absent
      title or description is stored as the text "undefined". */
  lemma SubmitReconciles(f: Form, s: Server, user: UserId, id: CarId, uploads: seq<Path>)
    requires id in s.cars && s.cars[id].userId == user
    requires Tracks(f, s.cars[id].images)
    requires |uploads| == |f.newImages|
    ensures var p := Submit(f);
            var r := Update(s, user, id, Present(p.title), Present(p.description), Present(p.tags),
                            uploads, p.deletedImages, true);
            var before := s.cars[id];
            && (r.response.BadRequest? <==> |f.newImages| + |f.deletedImages| > MaxImages)
            && (r.response.Ok? ==>
                  && r.response.value.images == f.car.images + uploads
                  && r.response.value.title ==
                       (if f.car.title.Absent? then Present(Undefined)
                        else if f.car.title.value == "" then before.title else f.car.title)
                  && r.response.value.description ==
                       (if f.car.description.Absent? then Present(Undefined)
                        else if f.car.description.value == "" then before.description
                        else f.car.description)
                  && r.response.value.tags ==
                       (if p.tags == "" then before.tags else Present(p.tags)))
  {
  }

  /** Loading a stored car and submitting the form unedited keeps its images
      and every present title or description, but stores an absent title or
      description as the text "undefined", which later updates keep since it
      is not empty. */
  lemma {:induction false} ResubmitUnedited(s: Server, user: UserId, id: CarId, tags: seq<string>)
    requires id in s.cars && s.cars[id].userId == user
    ensures var before := s.cars[id];
            var p := Submit(Loaded(FormOf(before, tags)));
            var r := Update(s, user, id, Present(p.title), Present(p.description), Present(p.tags),
                            [], p.deletedImages, true);
            && r.response.Ok?
            && r.response.value.images == before.images
            && r.response.value.title == (if before.title.Absent? then Present(Undefined) else before.title)
            && r.response.value.description ==
                 (if before.description.Absent? then Present(Undefined) else before.description)
  {
    var f := Loaded(FormOf(s.cars[id], tags));
    SubmitReconciles(f, s, user, id, []);
    assert f.car.images + [] == s.cars[id].images;
  }
}

=== FILE: images.dfy ===
/**
 The list and set arithmetic behind a car's images: which image references
 survive a deletion request, and which files remain on disk after a batch of
 best-effort unlinks.
 */
module ImageLists {

  /** An image reference: the storage path multer assigned to an uploaded file. */
  type Path = string

  /** The images of `images` not named in `deleted`, in their original order.
      Every copy of a deleted path is dropped; unknown deletion requests are ignored. */
  function Retain(images: seq<Path>, deleted: seq<Path>): (r: seq<Path>)
    ensures |r| <= |images|
    ensures forall x :: x in r <==> x in images && x !in deleted
    ensures forall x :: multiset(r)[x] == if x in deleted then 0 else multiset(images)[x]
  {
    if |images| == 0 then []
    else
      var rest := Retain(images[1..], deleted);
      assert images == [images[0]] + images[1..];
      if images[0] in deleted then rest else [images[0]] + rest
  }

  /** Filtering distributes over concatenation, so it keeps relative order. */
  lemma {:induction false} RetainAppend(a: seq<Path>, b: seq<Path>, deleted: seq<Path>)
    ensures Retain(a + b, deleted) == Retain(a, deleted) + Retain(b, deleted)
  {
    if |a| == 0 {
      assert a + b == b;
    } else {
      assert (a + b)[0] == a[0];
      assert (a + b)[1..] == a[1..] + b;
      RetainAppend(a[1..], b, deleted);
    }
  }

  /** A one-element list is kept exactly when its element is not deleted.
      Together with RetainAppend this pins Retain down completely. */
  lemma RetainSingleton(x: Path, deleted: seq<Path>)
    ensures Retain([x], deleted) == if x in deleted then [] else [x]
  {
    assert [x][1..] == [];
  }

  /** Nothing is dropped exactly when no image is named in the deletion list. */
  lemma {:induction false} RetainUnchanged(images: seq<Path>, deleted: seq<Path>)
    ensures Retain(images, deleted) == images <==> (forall x :: x in images ==> x !in deleted)
  {
    if forall x :: x in images ==> x !in deleted {
      if |images| > 0 {
        assert forall x :: x in images[1..] ==> x in images;
        RetainUnchanged(images[1..], deleted);
        assert images == [images[0]] + images[1..];
      }
    }
  }

  /** Two successive filters equal one filter by the concatenated deletion lists. */
  lemma {:induction false} RetainTwice(images: seq<Path>, d: seq<Path>, e: seq<Path>)
    ensures Retain(Retain(images, d), e) == Retain(images, d + e)
  {
    if |images| > 0 {
      RetainTwice(images[1..], d, e);
      var x := images[0];
      assert x in d + e <==> x in d || x in e;
      if x !in d {
        var rest := Retain(images[1..], d);
        assert Retain(images, d) == [x] + rest;
        assert ([x] + rest)[1..] == rest;
      }
    }
  }

  /** The files left on `disk` after visiting `paths` in order and unlinking
      each one that exists; a path that does not exist is skipped. */
  function UnlinkExisting(disk: set<Path>, paths: seq<Path>): (r: set<Path>)
    ensures forall p :: p in r <==> p in disk && p !in paths
  {
    if |paths| == 0 then disk
    else
      var next := if paths[0] in disk then disk - {paths[0]} else disk;
      assert forall p :: p in paths <==> p == paths[0] || p in paths[1..];
      UnlinkExisting(next, paths[1..])
  }
}

=== FILE: tags.dfy ===
/**
 Tags travel as text: the edit form shows and submits `tags.join(',')` and
 reads the field back with `value.split(',')`. These are JavaScript's
 Array.prototype.join and String.prototype.split with the one-character
 separator ',' and no limit.
 */
module TagText {

  const Comma: char := ','

  /** `value.split(',')`: the maximal comma-free pieces, never an empty list
      (splitting the empty string gives one empty piece). */
  function Split(value: string): (r: seq<string>)
    ensures |r| >= 1
    ensures forall i :: 0 <= i < |r| ==> Comma !in r[i]
    decreases |value|
  {
    if |value| == 0 then [""]
    else if value[0] == Comma then [""] + Split(value[1..])
    else
      var rest := Split(value[1..]);
      [[value[0]] + rest[0]] + rest[1..]
  }

  /** `tags.join(',')`: the tags with one comma between neighbours. The text
      starts with the first tag, and when no tag holds a comma it holds
      exactly one comma per pair of neighbours. */
  function Join(tags: seq<string>): (r: string)
    ensures |tags| == 0 ==> r == ""
    ensures |tags| >= 1 ==> tags[0] <= r
    ensures (|tags| >= 1 && forall i :: 0 <= i < |tags| ==> Comma !in tags[i]) ==>
              multiset(r)[Comma] == |tags| - 1
  {
    if |tags| == 0 then ""
    else if |tags| == 1 then tags[0]
    else tags[0] + [Comma] + Join(tags[1..])
  }

  /** Joining a list with a known first tag. */
  lemma {:induction false} JoinCons(head: string, rest: seq<string>)
    ensures Join([head] + rest) == if |rest| == 0 then head else head + [Comma] + Join(rest)
  {
    var t := [head] + rest;
    assert t[0] == head && t[1..] == rest;
  }

  /** Extending the first tag extends the joined text by the same prefix. */
  lemma {:induction false} JoinExtendFirst(prefix: string, tags: seq<string>)
    requires |tags| >= 1
    ensures Join([prefix + tags[0]] + tags[1..]) == prefix + Join(tags)
  {
    var head, rest := tags[0], tags[1..];
    assert [head] + rest == tags;
    JoinCons(prefix + head, rest);
    JoinCons(head, rest);
    if |rest| > 0 {
      AppendAssoc(prefix, head, [Comma] + Join(rest));
    }
  }

  /** String concatenation regrouped, stated once so that callers need not
      rediscover it inside larger proofs. */
  lemma AppendAssoc(a: string, b: string, c: string)
    ensures (a + b) + c == a + (b + c)
    ensures a + b + c == a + (b + c)
  {
  }

  /** The split of a text that starts with a comma: an empty first piece. */
  lemma {:induction false} SplitLeadingComma(value: string)
    requires |value| > 0 && value[0] == Comma
    ensures Split(value) == [""] + Split(value[1..])
  {
  }

  /** The split of a text that starts with another character: that
      character opens the first piece. */
  lemma {:induction false} SplitLeadingOther(value: string)
    requires |value| > 0 && value[0] != Comma
    ensures Split(value) == [[value[0]] + Split(value[1..])[0]] + Split(value[1..])[1..]
  {
  }

  /** Joining the pieces of a split gives the text back, for every text. */
  lemma {:induction false} JoinSplit(value: string)
    ensures Join(Split(value)) == value
  {
    if |value| > 0 {
      var c, tail := value[0], value[1..];
      assert value == [c] + tail;
      var rest := Split(tail);
      JoinSplit(tail);
      if c == Comma {
        SplitLeadingComma(value);
        JoinCons("", rest);
        assert Join(Split(value)) == "" + [Comma] + tail;
      } else {
        SplitLeadingOther(value);
        JoinExtendFirst([c], rest);
      }
    }
  }

  /** Splitting text that starts with a comma-free `t` glues `t` onto the first piece. */
  lemma {:induction false} SplitCommaFreePrefix(t: string, u: string)
    requires Comma !in t
    ensures Split(t + u) == [t + Split(u)[0]] + Split(u)[1..]
  {
    if |t| == 0 {
      assert t + u == u;
      assert t + Split(u)[0] == Split(u)[0];
      assert [Split(u)[0]] + Split(u)[1..] == Split(u);
    } else {
      assert (t + u)[0] == t[0];
      assert (t + u)[1..] == t[1..] + u;
      SplitCommaFreePrefix(t[1..], u);
      assert [t[0]] + (t[1..] + Split(u)[0]) == t + Split(u)[0];
    }
  }

  /** Splitting joined tags gives the tags back when the list is non-empty and
      no tag contains a comma. */
  lemma {:induction false} SplitJoin(tags: seq<string>)
    requires |tags| >= 1
    requires forall i :: 0 <= i < |tags| ==> Comma !in tags[i]
    ensures Split(Join(tags)) == tags
  {
    if |tags| == 1 {
      SplitCommaFreePrefix(tags[0], "");
      assert tags[0] + "" == tags[0];
    } else {
      var tail := Join(tags[1..]);
      SplitJoin(tags[1..]);
      assert ([Comma] + tail)[0] == Comma;
      assert ([Comma] + tail)[1..] == tail;
      assert Split([Comma] + tail) == [""] + tags[1..];
      SplitCommaFreePrefix(tags[0], [Comma] + tail);
      assert tags[0] + [Comma] + tail == tags[0] + ([Comma] + tail);
      assert tags[0] + "" == tags[0];
      assert [tags[0]] + tags[1..] == tags;
    }
  }

  /** The empty list and the one-empty-tag list both join to the empty text,
      so the round trip cannot be extended to the empty list. */
  lemma JoinNotInjectiveOnEmpty()
    ensures Join([]) == Join([""]) == ""
    ensures Split(Join([])) != []
  {
  }
}
